=== FILE: README.md ===
# rabbimq-scraper: message settlement, modelled in Dafny

rabbimq-scraper is a two-stage pipeline built on RabbitMQ:

- a Node producer takes URLs from `url_queue`, captures a full-page
  screenshot of each one, and publishes the PNG to `screenshot_queue` with the
  URL as a `url` header;
- a Python consumer takes the screenshots, sends each one to the OpenAI chat
  API as a base64 data url, and stores the returned analysis in PostgreSQL.

This project models the part of the two programs that decides what happens to
a delivery: which calls each callback issues, which of them settle the delivery
(ack, nack with requeue, or nothing), and what the broker then does with the
queue.

Each callback is a pure function. Its inputs are the delivery and the
outcomes of its foreign calls (image decoding, PNG re-encoding, the analysis
request, the INSERT/commit/rollback, the screenshot, the channel calls). Each
outcome is either a value or a raised error. The output is the trace of calls
the callback issued, including calls that raised, plus how it ended.

The modules are:

- `Common`: bytes, `Option`, and the `Outcome` of a foreign call.
- `Events`: the calls a callback can issue, and the settlements of a trace.
- `Base64`: the standard base64 of section 4 of RFC 4648, as produced by
  Python's `base64.b64encode` in `encode_image`, together with a strict
  decoder. Both round trips are proved.
- `Consumer`: the data url, `store_result` and `process_screenshot` of
  `consumer/src/consumer.py`.
- `Producer`: the `channel.consume` callback of `producer/producer.ts`.
- `Broker`: the AMQP queue behaviour both programs rely on. It covers
  delivery under a prefetch limit, ack, nack with and without requeue, the
  channel error for settling a tag that is not outstanding (AMQP reply code
  406, PRECONDITION_FAILED), and the requeue of every unsettled delivery when
  the channel goes away.
- `Pipeline`: each program's consume loop against the broker, with the
  prefetch of 1 that both of them set.

Behaviour of the code worth knowing:

- `store_result` catches every error of the INSERT and the commit, and then
  rolls back. `process_screenshot` therefore acks a delivery whose row was
  never stored, so a storage failure is never retried.
  The model follows the code (`Consumer.StoreFailureStillAcked`,
  `Pipeline.StoreFailureLosesMessage`).
- The error escapes `store_result` only when the rollback itself raises. The
  callback then nacks (`Consumer.RollbackFailureNacks`).
- `basic_ack` sits inside the `try`. When it raises, the `except` branch
  nacks the same tag, so the delivery receives two settlement calls
  (`Consumer.AckFailureSettlesTwice`). The producer behaves the same way
  (`Producer.AckFailureSettlesTwice`). Because a raising channel call is
  taken below to mean the channel is gone, the consume loops never hand both
  settlements to the broker. Had the channel survived, the broker would have
  rejected the second one (`Broker.DoubleSettleRejected`), which is a fact
  about the broker alone.
- The producer parses the message body before its `try`. A body that is not
  JSON makes the async callback reject. Nobody handles that rejection, so the
  delivery is never settled. With `prefetch(1)` the producer then receives
  nothing more (`Pipeline.MalformedBodyStalls`), unless the broker's
  delivery acknowledgement timeout closes the channel.
- A redelivered URL whose screenshot fails again is acked and dropped. The
  dead-letter queue that the comments mention does not exist
  (`Producer.RedeliveredFailureDropped`).

A channel call that raises (`basic_ack`, `basic_nack`, `sendToQueue`, `ack`,
`nack`) is taken to mean that the channel is gone. In the consumer, an
exception out of the callback ends `start_consuming`, and `main` closes the
connection. In both cases the broker requeues every unsettled delivery.

## Model

| member | source | states |
|---|---|---|
| `Base64.Encode` | consumer/src/consumer.py:40-41 | `encode_image`'s text: every character is a letter of the base64 alphabet or the `=` pad |
| `Base64.EncodeDecodeIff` | consumer/src/consumer.py:40-41 | a text is the base64 encoding of a byte string exactly when the strict decoder maps the text to that byte string |
| `Base64.DecodeEncode` | consumer/src/consumer.py:40-41 | decoding the base64 text of any byte string gives back exactly that byte string |
| `Base64.EncodeDecode` | consumer/src/consumer.py:40-41 | every text that decodes is the encoding of what it decodes to, so no second spelling of the same bytes is accepted |
| `Base64.EncodeLength` | consumer/src/consumer.py:40-41 | the text has four characters for every three bytes or part of three bytes, so its length is a multiple of four |
| `Base64.SplitSize` | consumer/src/consumer.py:40-41 | three bytes give four 6-bit values, and a last group of one or two bytes gives two or three values |
| `Base64.JoinOfSplit` | consumer/src/consumer.py:40-41 | regrouping the bits of a byte string into 6-bit values loses nothing: joining them gives the bytes back |
| `Base64.SplitOfJoin` | consumer/src/consumer.py:40-41 | any sequence of 6-bit values that joins into bytes is exactly the split of those bytes |
| `Base64.ValuesOfLetters` | consumer/src/consumer.py:40-41 | reading back the alphabet letters of 6-bit values gives the same values |
| `Base64.LettersOfValues` | consumer/src/consumer.py:40-41 | a text made only of alphabet letters is the lettering of its values |
| `Base64.GroupRoundTrip` | consumer/src/consumer.py:40-41 | cutting three bytes into four 6-bit values and gluing them back gives the three bytes |
| `Base64.EncodeShape` | consumer/src/consumer.py:40-41 | the text is alphabet letters followed by `=` padding, one `=` when the length leaves two bytes over and two when it leaves one |
| `Base64.Rfc4648VectorF` | consumer/src/consumer.py:40-41 | the one byte `f` encodes as `Zg==`, the test vector of section 10 of RFC 4648 |
| `Base64.Rfc4648VectorFo` | consumer/src/consumer.py:40-41 | the two bytes `fo` encode as `Zm8=`, the test vector of section 10 of RFC 4648 |
| `Base64.Rfc4648VectorFoo` | consumer/src/consumer.py:40-41 | the three bytes `foo` encode as `Zm9v` without padding, the test vector of section 10 of RFC 4648 |
| `Base64.Rfc4648VectorFoobar` | consumer/src/consumer.py:40-41 | the six bytes `foobar` encode as `Zm9vYmFy`, the test vector of section 10 of RFC 4648 |
| `Consumer.DataUrl` | consumer/src/consumer.py:80 | the image url starts with `data:image/png;base64,` |
| `Consumer.DataUrlCarries` | consumer/src/consumer.py:65-80 | the payload of the data url is the base64 text of the PNG, and a payload belongs to the data url of a PNG exactly when it decodes to that PNG |
| `Consumer.StoreResult` | consumer/src/consumer.py:43-55 | the INSERT is issued first and only once. Commit is reached only after the INSERT succeeded. A row is added exactly when both succeed. A rollback happens exactly when either fails. An error escapes exactly when the rollback fails too. No settlement is issued |
| `Consumer.ProcessScreenshot` | consumer/src/consumer.py:57-99 | the committed table only grows, and at most by this delivery's row. Every ack or nack is for this delivery's own tag, and every nack requeues |
| `Consumer.NoHeadersLeavesUnsettled` | consumer/src/consumer.py:58 | a message without a headers table makes the url lookup raise before the `try`: no call is issued, and the delivery is neither acked nor nacked |
| `Consumer.InsertUsesHeaderUrl` | consumer/src/consumer.py:58 | the INSERT uses the `url` header, or `Unknown URL` when the header is absent, and it is issued at most once, right after the analysis request |
| `Consumer.SettledExactlyOnce` | consumer/src/consumer.py:57-99 | when `basic_ack` works, the delivery gets exactly one settlement. It is an ack when the analysis was obtained and `store_result` returned, and a requeueing nack otherwise |
| `Consumer.EarlyFailureNacksOnce` | consumer/src/consumer.py:60-99 | a decode, re-encode or analysis failure ends in exactly one requeueing nack, with no INSERT and no row. The callback raises only if that nack raises |
| `Consumer.SuccessStoresThenAcks` | consumer/src/consumer.py:60-95 | on the success path the calls are exactly: analysis request, INSERT, commit, ack of the own tag. The row is added and the callback returns |
| `Consumer.AckOnlyAfterInsert` | consumer/src/consumer.py:92-94 | for every combination of outcomes, an ack is issued only after the INSERT |
| `Consumer.StoreFailureStillAcked` | consumer/src/consumer.py:53-94 | an INSERT or commit failure with a working rollback still ends in an ack of the delivery, after a rollback, with no row stored |
| `Consumer.RollbackFailureNacks` | consumer/src/consumer.py:53-99 | when the rollback raises too, the callback nacks with requeue and stores nothing |
| `Consumer.AckFailureSettlesTwice` | consumer/src/consumer.py:94-99 | a raising `basic_ack` is followed by a nack of the same tag: two settlements |
| `Consumer.AnalysisRequestCarriesImage` | consumer/src/consumer.py:61-87 | the first call is the `gpt-4o` request with `max_tokens` 300, and its image url is a PNG data url whose payload decodes to exactly the re-encoded PNG |
| `Producer.Retry` | producer/producer.ts:50-57 | the `catch` block settles this message's tag: a nack with requeue for a first delivery, and an ack for a redelivered one |
| `Producer.HandleUrl` | producer/producer.ts:33-60 | a null message does nothing. Every settlement is for the message's own tag, and every nack requeues. Screenshots go only to `screenshot_queue`, labelled with the parsed url |
| `Producer.MalformedBodyUnsettled` | producer/producer.ts:35 | a body that does not parse rejects the callback before its `try`: no screenshot, no send, no ack or nack |
| `Producer.SuccessSendsThenAcks` | producer/producer.ts:39-46 | on success the calls are exactly: screenshot, send to `screenshot_queue` with the `url` header, ack |
| `Producer.SettledExactlyOnce` | producer/producer.ts:38-58 | with a working `ack`, a parsed message gets exactly one settlement: an ack after a forwarded screenshot, otherwise the settlement chosen from the `redelivered` flag |
| `Producer.FirstFailureRequeued` | producer/producer.ts:54-57 | a failed screenshot on first delivery ends in one requeueing nack, with nothing sent |
| `Producer.RedeliveredFailureDropped` | producer/producer.ts:50-53 | a failed screenshot on redelivery ends in one ack, with nothing sent |
| `Producer.AckFailureSettlesTwice` | producer/producer.ts:46-57 | a throwing `ack` is followed by a second settlement of the same message from the `catch` block |
| `Broker.Publish` | producer/producer.ts:41-43 | a publish appends the message to the ready messages and changes nothing else |
| `Broker.Deliver` | consumer/src/consumer.py:108 | the broker hands out the head of the queue under the channel's next tag, which is positive and never handed out before, exactly when a message is ready and the prefetch limit allows it, and it keeps the invariant |
| `Broker.Settle` | consumer/src/consumer.py:94-99 | an ack or nack of an outstanding tag retires that delivery and leaves the other outstanding deliveries in their order, and a nack with requeue puts its message back at the head of the queue marked redelivered. Settling a tag that is not outstanding is a channel error. The invariant is kept |
| `Broker.Disconnect` | consumer/src/consumer.py:117-119 | closing the connection puts every unsettled delivery back at the head of the queue, marked redelivered, ahead of the ready ones |
| `Broker.ApplySettlesOnly` | consumer/src/consumer.py:94-99 | only the acks and nacks of a trace act on the queue |
| `Broker.DoubleSettleRejected` | producer/producer.ts:46-53 | on the broker alone, a second settlement of a tag draws a channel error, since the first one retired the tag; the consume loops never reach it, because a raising channel call ends the channel |
| `Pipeline.ConsumerStart` | consumer/src/consumer.py:106-109 | the consumer starts on a valid queue with prefetch 1 and nothing unsettled |
| `Pipeline.ConsumerStep` | consumer/src/consumer.py:109-119 | a consume step keeps the queue invariant and the prefetch limit, and a stopped consumer does nothing |
| `Pipeline.HandlerRunsAlone` | consumer/src/consumer.py:108 | with prefetch 1, the delivery being processed is the only unsettled one |
| `Pipeline.InFlightAtMostOne` | consumer/src/consumer.py:108 | however many deliveries the consumer goes through, it never holds more than one unsettled delivery |
| `Pipeline.ConsumerSuccessStep` | consumer/src/consumer.py:92-94 | a successfully processed delivery leaves the queue for good and adds its row |
| `Pipeline.ConsumerFailureRequeues` | consumer/src/consumer.py:97-99 | a delivery whose decode, PNG re-encode or analysis fails, with a working `basic_nack`, goes back to the head of the queue, marked redelivered, with no row added |
| `Pipeline.PoisonMessageNeverLeaves` | consumer/src/consumer.py:97-99 | a message whose decode, PNG re-encode or analysis fails on every attempt, with a working `basic_nack` each time, stays at the head of the queue through any number of steps, and no row is ever added |
| `Pipeline.StoreFailureLosesMessage` | consumer/src/consumer.py:53-94 | a storage failure swallowed by `store_result` removes the delivery from the queue with no row recording it |
| `Pipeline.NoHeadersStopsConsumer` | consumer/src/consumer.py:112-119 | a message without headers stops the consumer, and the message returns to the queue marked redelivered |
| `Pipeline.AckFailureStopsConsumer` | consumer/src/consumer.py:94-99 | a raising `basic_ack` stops the consumer and requeues the message, marked redelivered, although its row is already committed when the INSERT and commit succeeded |
| `Pipeline.AckFailureDuplicatesRow` | consumer/src/consumer.py:94-99 | after a raising `basic_ack` on a committed row, the consumer started again processes the redelivered message and stores the same row a second time |
| `Pipeline.ProducerStart` | producer/producer.ts:27-33 | the producer starts on a valid `url_queue` with prefetch 1 and nothing unsettled |
| `Pipeline.Publishes` | producer/producer.ts:41-43 | only sends are published to the screenshot queue, and the queue invariant is kept |
| `Pipeline.ProducerStep` | producer/producer.ts:33-60 | a producer step keeps the invariants of both queues and the prefetch limit, and a stopped producer does nothing |
| `Pipeline.ProducerSuccessStep` | producer/producer.ts:39-46 | a URL handled successfully leaves `url_queue`, and its screenshot joins the screenshot queue with the parsed url as its header |
| `Pipeline.FirstFailureRequeuedStep` | producer/producer.ts:54-57 | a first failed screenshot puts the URL back at the head of `url_queue`, marked redelivered, with nothing published |
| `Pipeline.RedeliveredFailureDroppedStep` | producer/producer.ts:50-53 | a failed screenshot on redelivery removes the URL from `url_queue` for good, with nothing published |
| `Pipeline.AlwaysFailingAttemptedTwice` | producer/producer.ts:47-57 | a URL whose screenshot always fails is attempted exactly twice and then removed |
| `Pipeline.MalformedBodyStalls` | producer/producer.ts:32-35 | a body that does not parse leaves its delivery unsettled, and with prefetch 1 no later step changes the producer's state |
| `Pipeline.StuckStaysStuck` | producer/producer.ts:32 | with prefetch 1 and one unsettled delivery, any number of further steps leaves the producer unchanged |
| `Pipeline.ForwardedUrlIsStored` | producer/producer.ts:41-43 | the url the producer puts in the `url` header is the url the consumer stores the analysis under |

## Left out

- Image decoding and PNG re-encoding (PIL), the OpenAI client, psycopg2 and
  puppeteer are foreign code. Each is an input outcome: a value or a raised
  error. The bytes of the re-encoded PNG and the text of the analysis are free
  inputs.
- Connection setup and teardown, `atexit`, `load_dotenv`, logging and console
  output do not affect settlement. The only exception is the closing of the
  connection, which the broker turns into a requeue of the unsettled
  deliveries.
- Queue durability flags (`durable`) and broker restarts are not modelled:
  the model covers one broker lifetime.
- RabbitMQ's delivery acknowledgement timeout (`consumer_timeout`) is not
  modelled. It closes a channel that holds an unacked delivery too long, so
  the stall of `Pipeline.MalformedBodyStalls` and `Pipeline.StuckStaysStuck`
  lasts only until that timeout fires.
- Several consumers on one queue, and concurrent deliveries, are not
  modelled. Both programs run one consumer with prefetch 1.
- The process crash that Node may cause on an unhandled rejection is not
  modelled. The rejected callback is treated as lost, and the delivery stays
  unsettled.
- A parsed JSON value whose `url` is missing or not a string is not modelled
  separately. Its screenshot fails, and that failure is the `capture`
  outcome.
- The `multiple` flag of `nack` is not modelled: both programs pass false.
- A foreign call that blocks and never returns is not modelled. No timeout is
  set on `cur.execute`, `conn.commit` or the analysis request, and such a
  call would leave the delivery unsettled and, with prefetch 1, stall the
  consumer. The model only knows calls that return a value or raise.
- The server-side `created_at` and any other column the database fills in
  are not modelled. The
  `website_analyses` table is the list of committed `(url, analysis)` rows.
- `Consumer.DataUrl`: its own contract states only the prefix. The payload
  facts are stated by `Consumer.DataUrlCarries`.
- `Pipeline.ConsumerStep`: its own contract states only the invariants it
  keeps. What a step does to the queue is stated by the step lemmas next to
  it.
- `Pipeline.ProducerStep`: its own contract states only the invariants it
  keeps. What a step does to the queue is stated by the step lemmas next to
  it.
- Retry with backoff, a dead-letter queue and schema creation do not exist in
  the code, so there is nothing of them to model.
- The older `consumer/consumer.py` and the scripts under `consumer/utils` are
  not part of this model.

=== FILE: base64.dfy ===
/** Standard base64 (section 4 of RFC 4648), as produced by Python's
    `base64.b64encode`: every three bytes become four 6-bit values, each value
    becomes a letter of the 64-letter alphabet `A-Z a-z 0-9 + /`, and a last
    group of one or two bytes is completed with `=` to four characters.

    The model keeps the three layers apart: bytes to 6-bit values (`Split`,
    `Join`), values to letters (`Letters`, `Values`), and the padding. */
module Base64 {
  import opened Common

  const Pad: char := '='

  predicate IsSextet(v: int) {
    0 <= v < 64
  }

  predicate AllSextets(vs: seq<int>) {
    forall i :: 0 <= i < |vs| ==> IsSextet(vs[i])
  }

  /** The letter of the alphabet for a 6-bit value. */
  function CharOf(v: int): (c: char)
    requires IsSextet(v)
  {
    if v < 26 then (65 + v) as char
    else if v < 52 then (97 + v - 26) as char
    else if v < 62 then (48 + v - 52) as char
    else if v == 62 then '+'
    else '/'
  }

  /** The 6-bit value of a letter of the alphabet; None for any other character,
      the padding character included. */
  function ValueOf(c: char): (r: Option<int>)
    ensures r.Some? ==> IsSextet(r.value)
  {
    if 'A' <= c <= 'Z' then Some(c as int - 65)
    else if 'a' <= c <= 'z' then Some(c as int - 97 + 26)
    else if '0' <= c <= '9' then Some(c as int - 48 + 52)
    else if c == '+' then Some(62)
    else if c == '/' then Some(63)
    else None
  }

  /** The alphabet is a bijection between the 6-bit values and its 64 letters,
      none of which is the padding character. */
  lemma ValueOfCharOf(v: int)
    requires IsSextet(v)
    ensures ValueOf(CharOf(v)) == Some(v)
  {
  }

  lemma CharOfValueOf(c: char)
    requires ValueOf(c).Some?
    ensures CharOf(ValueOf(c).value) == c
  {
  }

  // ---- bytes and 6-bit values ----

  lemma DivMod3(q: int, r: int)
    requires 0 <= r < 3
    ensures (q * 3 + r) / 3 == q && (q * 3 + r) % 3 == r
  {
  }

  lemma DivMod4(q: int, r: int)
    requires 0 <= r < 4
    ensures (q * 4 + r) / 4 == q && (q * 4 + r) % 4 == r
  {
  }

  lemma DivMod16(q: int, r: int)
    requires 0 <= r < 16
    ensures (q * 16 + r) / 16 == q && (q * 16 + r) % 16 == r
  {
  }

  lemma DivMod64(q: int, r: int)
    requires 0 <= r < 64
    ensures (q * 64 + r) / 64 == q && (q * 64 + r) % 64 == r
  {
  }

  /** Cutting three bytes into four 6-bit values and gluing them back gives the
      three bytes again. */
  lemma SplitJoin(a: int, b: int, c: int)
    requires 0 <= a < 256 && 0 <= b < 256 && 0 <= c < 256
    ensures var v0, v1, v2, v3 := a / 4, a % 4 * 16 + b / 16, b % 16 * 4 + c / 64, c % 64;
            && IsSextet(v0) && IsSextet(v1) && IsSextet(v2) && IsSextet(v3)
            && v0 * 4 + v1 / 16 == a
            && v1 % 16 * 16 + v2 / 4 == b
            && v2 % 4 * 64 + v3 == c
  {
    DivMod16(a % 4, b / 16);
    DivMod4(b % 16, c / 64);
  }

  /** Gluing four 6-bit values into three bytes and cutting them again gives the
      four values again. */
  lemma JoinSplit(v0: int, v1: int, v2: int, v3: int)
    requires IsSextet(v0) && IsSextet(v1) && IsSextet(v2) && IsSextet(v3)
    ensures var a, b, c := v0 * 4 + v1 / 16, v1 % 16 * 16 + v2 / 4, v2 % 4 * 64 + v3;
            && 0 <= a < 256 && 0 <= b < 256 && 0 <= c < 256
            && a / 4 == v0 && a % 4 * 16 + b / 16 == v1
            && b % 16 * 4 + c / 64 == v2 && c % 64 == v3
  {
    DivMod4(v0, v1 / 16);
    DivMod16(v1 % 16, v2 / 4);
    DivMod64(v2 % 4, v3);
  }

  /** Three bytes as four 6-bit values. */
  function SplitGroup(a: byte, b: byte, c: byte): (g: seq<int>)
    ensures |g| == 4 && AllSextets(g)
  {
    SplitJoin(a as int, b as int, c as int);
    [a as int / 4, a as int % 4 * 16 + b as int / 16, b as int % 16 * 4 + c as int / 64, c as int % 64]
  }

  /** Four 6-bit values as three bytes. */
  function JoinGroup(g: seq<int>): (r: Bytes)
    requires |g| == 4 && AllSextets(g)
    ensures |r| == 3
  {
    JoinSplit(g[0], g[1], g[2], g[3]);
    [(g[0] * 4 + g[1] / 16) as byte, (g[1] % 16 * 16 + g[2] / 4) as byte, (g[2] % 4 * 64 + g[3]) as byte]
  }

  lemma GroupRoundTrip(a: byte, b: byte, c: byte)
    ensures JoinGroup(SplitGroup(a, b, c)) == [a, b, c]
  {
    SplitJoin(a as int, b as int, c as int);
  }

  lemma GroupRoundTripBack(g: seq<int>)
    requires |g| == 4 && AllSextets(g)
    ensures var r := JoinGroup(g); SplitGroup(r[0], r[1], r[2]) == g
  {
    JoinSplit(g[0], g[1], g[2], g[3]);
  }

  /** The 6-bit values of a byte string, most significant bits first; a last
      group of one or two bytes gives two or three values, its missing low bits
      taken as zero. */
  function Split(s: Bytes): (vs: seq<int>)
    ensures AllSextets(vs)
    decreases |s|
  {
    if |s| == 0 then []
    else if |s| == 1 then
      SplitJoin(s[0] as int, 0, 0);
      [s[0] as int / 4, s[0] as int % 4 * 16]
    else if |s| == 2 then
      SplitJoin(s[0] as int, s[1] as int, 0);
      [s[0] as int / 4, s[0] as int % 4 * 16 + s[1] as int / 16, s[1] as int % 16 * 4]
    else
      SplitGroup(s[0], s[1], s[2]) + Split(s[3..])
  }

  /** The bytes of a sequence of 6-bit values; None when its length leaves a
      single value over, or when a short last group has low bits set that no
      byte string produces. */
  function Join(vs: seq<int>): Option<Bytes>
    requires AllSextets(vs)
    decreases |vs|
  {
    if |vs| == 0 then Some([])
    else if |vs| == 1 then None
    else if |vs| == 2 then
      JoinSplit(vs[0], vs[1], 0, 0);
      if vs[1] % 16 == 0 then Some([(vs[0] * 4 + vs[1] / 16) as byte]) else None
    else if |vs| == 3 then
      JoinSplit(vs[0], vs[1], vs[2], 0);
      if vs[2] % 4 == 0 then Some([(vs[0] * 4 + vs[1] / 16) as byte, (vs[1] % 16 * 16 + vs[2] / 4) as byte])
      else None
    else
      match Join(vs[4..])
      case None => None
      case Some(rest) => Some(JoinGroup(vs[..4]) + rest)
  }

  lemma SplitCons(s: Bytes)
    requires |s| >= 3
    ensures Split(s) == SplitGroup(s[0], s[1], s[2]) + Split(s[3..])
  {
    assert |s| != 0 && |s| != 1 && |s| != 2;
  }

  lemma JoinCons(g: seq<int>, rest: seq<int>)
    requires |g| == 4 && AllSextets(g) && AllSextets(rest) && Join(rest).Some?
    ensures AllSextets(g + rest) && Join(g + rest) == Some(JoinGroup(g) + Join(rest).value)
  {
    var vs := g + rest;
    assert vs[..4] == g && vs[4..] == rest;
  }

  /** Four values for every three bytes, and two or three for a last group of
      one or two bytes. */
  lemma {:induction false} SplitSize(s: Bytes)
    ensures |Split(s)| == (4 * |s| + 2) / 3
    decreases |s|
  {
    if |s| >= 3 {
      SplitCons(s);
      SplitSize(s[3..]);
      var x := 4 * (|s| - 3) + 2;
      DivMod3(x / 3 + 4, x % 3);
    }
  }

  lemma {:induction false} JoinOfSplit(s: Bytes)
    ensures Join(Split(s)) == Some(s)
    decreases |s|
  {
    if |s| == 1 {
      SplitJoin(s[0] as int, 0, 0);
      assert [s[0]] == s;
    } else if |s| == 2 {
      SplitJoin(s[0] as int, s[1] as int, 0);
      assert [s[0], s[1]] == s;
    } else if |s| > 2 {
      SplitCons(s);
      JoinOfSplit(s[3..]);
      JoinCons(SplitGroup(s[0], s[1], s[2]), Split(s[3..]));
      GroupRoundTrip(s[0], s[1], s[2]);
      assert [s[0], s[1], s[2]] + s[3..] == s;
    }
  }

  lemma {:induction false} SplitOfJoin(vs: seq<int>)
    requires AllSextets(vs) && Join(vs).Some?
    ensures Split(Join(vs).value) == vs
    decreases |vs|
  {
    if |vs| == 2 {
      JoinSplit(vs[0], vs[1], 0, 0);
    } else if |vs| == 3 {
      JoinSplit(vs[0], vs[1], vs[2], 0);
    } else if |vs| > 3 {
      var g, rest := vs[..4], vs[4..];
      assert vs == g + rest;
      SplitOfJoin(rest);
      JoinCons(g, rest);
      var r := JoinGroup(g);
      var s := r + Join(rest).value;
      GroupRoundTripBack(g);
      SplitCons(s);
      assert s[0] == r[0] && s[1] == r[1] && s[2] == r[2] && s[3..] == Join(rest).value;
    }
  }

  // ---- 6-bit values and letters ----

  /** The letters of a sequence of 6-bit values. */
  function Letters(vs: seq<int>): (t: string)
    requires AllSextets(vs)
    ensures |t| == |vs|
    ensures forall i :: 0 <= i < |t| ==> t[i] != Pad && ValueOf(t[i]).Some?
    decreases |vs|
  {
    if |vs| == 0 then []
    else
      ValueOfCharOf(vs[0]);
      [CharOf(vs[0])] + Letters(vs[1..])
  }

  /** The 6-bit values of a text; None unless every character is a letter. */
  function Values(t: string): (r: Option<seq<int>>)
    ensures r.Some? ==> AllSextets(r.value) && |r.value| == |t|
    decreases |t|
  {
    if |t| == 0 then Some([])
    else
      match ValueOf(t[0])
      case None => None
      case Some(v) =>
        match Values(t[1..])
        case None => None
        case Some(rest) => Some([v] + rest)
  }

  lemma {:induction false} ValuesOfLetters(vs: seq<int>)
    requires AllSextets(vs)
    ensures Values(Letters(vs)) == Some(vs)
    decreases |vs|
  {
    if |vs| > 0 {
      var t := Letters(vs);
      ValueOfCharOf(vs[0]);
      ValuesOfLetters(vs[1..]);
      assert t[1..] == Letters(vs[1..]);
      assert [vs[0]] + vs[1..] == vs;
    }
  }

  lemma {:induction false} LettersOfValues(t: string)
    requires Values(t).Some?
    ensures Letters(Values(t).value) == t
    decreases |t|
  {
    if |t| > 0 {
      var vs := Values(t).value;
      CharOfValueOf(t[0]);
      LettersOfValues(t[1..]);
      assert vs[1..] == Values(t[1..]).value;
      assert [t[0]] + t[1..] == t;
    }
  }

  // ---- padding ----

  /** The `=` characters that complete the last group of `n` bytes. */
  function Padding(n: nat): (p: string)
    ensures |p| <= 2 && forall i :: 0 <= i < |p| ==> p[i] == Pad
  {
    if n % 3 == 1 then [Pad, Pad] else if n % 3 == 2 then [Pad] else []
  }

  /** How many `=` end a text, counting at most two. */
  function PadCount(t: string): (k: nat)
    ensures k <= 2 && k <= |t|
  {
    if |t| >= 2 && t[|t| - 1] == Pad && t[|t| - 2] == Pad then 2
    else if |t| >= 1 && t[|t| - 1] == Pad then 1
    else 0
  }

  /** The number of 6-bit values of `n` bytes: four per full group of three,
      and two or three for a last group of one or two bytes. */
  lemma SplitLength(n: nat)
    ensures var q, r := n / 3, n % 3;
            (4 * n + 2) / 3 == 4 * q + (if r == 0 then 0 else if r == 1 then 2 else 3)
            && 4 * ((n + 2) / 3) == 4 * q + (if r == 0 then 0 else 4)
  {
    var q, r := n / 3, n % 3;
    if r == 0 {
      DivMod3(4 * q, 2);
      DivMod3(q, 2);
    } else if r == 1 {
      DivMod3(4 * q + 2, 0);
      DivMod3(q + 1, 0);
    } else {
      DivMod3(4 * q + 3, 1);
      DivMod3(q + 1, 1);
    }
  }

  // ---- encoding and decoding ----

  /** `base64.b64encode(s).decode('utf-8')`: four characters for every three
      bytes or part of three bytes, all of them letters except the padding at
      the end. */
  function Encode(s: Bytes): (t: string)
    ensures forall i :: 0 <= i < |t| ==> t[i] == Pad || ValueOf(t[i]).Some?
  {
    Letters(Split(s)) + Padding(|s|)
  }

  /** Four characters for every three bytes or part of three bytes. */
  lemma EncodeLength(s: Bytes)
    ensures |Encode(s)| == 4 * ((|s| + 2) / 3) && |Encode(s)| % 4 == 0
  {
    SplitSize(s);
    PaddingFills(|s|, 0, 0);
  }

  /** Strict decoding: None for a text that is not the encoding of any byte
      string (wrong length, a foreign character, padding in the wrong place,
      or low bits set in a short last group). */
  function Decode(t: string): Option<Bytes> {
    if |t| % 4 != 0 then None
    else
      match Values(t[..|t| - PadCount(t)])
      case None => None
      case Some(vs) => Join(vs)
  }

  /** The padding of `n` bytes fills their letters up to a multiple of four;
      conversely the length of the letters fixes the padding. */
  lemma PaddingFills(n: nat, m: nat, k: nat)
    requires k <= 2
    ensures (4 * n + 2) / 3 + |Padding(n)| == 4 * ((n + 2) / 3)
    ensures (4 * n + 2) / 3 == 4 * m - k ==> |Padding(n)| == k
    ensures (4 * ((n + 2) / 3)) % 4 == 0
  {
    SplitLength(n);
    DivMod4((n + 2) / 3, 0);
    var q, r := n / 3, n % 3;
    if r == 0 {
      assert |Padding(n)| == 0 && (4 * n + 2) / 3 == 4 * q;
    } else if r == 1 {
      assert |Padding(n)| == 2 && (4 * n + 2) / 3 == 4 * q + 2;
    } else {
      assert |Padding(n)| == 1 && (4 * n + 2) / 3 == 4 * q + 3;
    }
  }

  /** Letters followed by at most two `=` end in exactly that many `=`. */
  lemma PadCountOf(letters: string, pads: string)
    requires forall i :: 0 <= i < |letters| ==> letters[i] != Pad
    requires |pads| <= 2 && forall i :: 0 <= i < |pads| ==> pads[i] == Pad
    ensures PadCount(letters + pads) == |pads|
  {
    var t := letters + pads;
    if |pads| < 2 && |letters| > 0 {
      assert t[|t| - 1 - |pads|] == letters[|letters| - 1];
    }
  }

  lemma PadCountSuffix(t: string)
    ensures forall i :: |t| - PadCount(t) <= i < |t| ==> t[i] == Pad
  {
  }

  /** Letters followed by their padding decode through the letters' values. */
  lemma DecodeOf(letters: string, pads: string, vs: seq<int>)
    requires (|letters| + |pads|) % 4 == 0
    requires forall i :: 0 <= i < |letters| ==> letters[i] != Pad
    requires |pads| <= 2 && forall i :: 0 <= i < |pads| ==> pads[i] == Pad
    requires AllSextets(vs) && Values(letters) == Some(vs)
    ensures Decode(letters + pads) == Join(vs)
  {
    var t := letters + pads;
    PadCountOf(letters, pads);
    assert t[..|t| - PadCount(t)] == letters;
  }

  /** The shape of the text: alphabet letters, then as many `=` as the last
      group of three bytes lacks. */
  lemma EncodeShape(s: Bytes)
    ensures var t, k := Encode(s), (3 - |s| % 3) % 3;
            && k <= |t|
            && (forall i :: 0 <= i < |t| - k ==> ValueOf(t[i]).Some?)
            && (forall i :: |t| - k <= i < |t| ==> t[i] == Pad)
  {
    var letters, pads := Letters(Split(s)), Padding(|s|);
    var t := Encode(s);
    assert t == letters + pads;
    assert |pads| == (3 - |s| % 3) % 3;
    forall i | 0 <= i < |t|
      ensures i < |letters| ==> ValueOf(t[i]).Some?
      ensures i >= |letters| ==> t[i] == Pad
    {
      if i < |letters| {
        assert t[i] == letters[i];
      } else {
        assert t[i] == pads[i - |letters|];
      }
    }
  }

  lemma LettersCons(vs: seq<int>)
    requires |vs| > 0 && AllSextets(vs)
    ensures Letters(vs) == [CharOf(vs[0])] + Letters(vs[1..])
  {
  }

  /** The letters of four 6-bit values. */
  lemma LettersOfFour(a: int, b: int, c: int, d: int)
    requires IsSextet(a) && IsSextet(b) && IsSextet(c) && IsSextet(d)
    ensures Letters([a, b, c, d]) == [CharOf(a), CharOf(b), CharOf(c), CharOf(d)]
  {
    var vs := [a, b, c, d];
    LettersCons(vs);
    LettersCons(vs[1..]);
    assert vs[1..][1..] == [c, d];
    LettersCons([c, d]);
    assert [c, d][1..] == [d];
    LettersCons([d]);
    assert [d][1..] == [];
  }

  /** Test vectors of section 10 of RFC 4648: "f", "fo", "foo", "foobar". */
  lemma Rfc4648VectorF()
    ensures Encode([102]) == "Zg=="
  {
    var s: Bytes := [102];
    assert Split(s) == [25, 32];
    LettersCons([25, 32]);
    assert [25, 32][1..] == [32];
    LettersCons([32]);
    assert [32][1..] == [];
  }

  lemma Rfc4648VectorFo()
    ensures Encode([102, 111]) == "Zm8="
  {
    var s: Bytes := [102, 111];
    assert Split(s) == [25, 38, 60];
    LettersCons([25, 38, 60]);
    assert [25, 38, 60][1..] == [38, 60];
    LettersCons([38, 60]);
    assert [38, 60][1..] == [60];
    LettersCons([60]);
    assert [60][1..] == [];
  }

  lemma Rfc4648VectorFoo()
    ensures Encode([102, 111, 111]) == "Zm9v"
  {
    var s: Bytes := [102, 111, 111];
    SplitCons(s);
    assert s[3..] == [];
    assert Split(s) == [25, 38, 61, 47];
    LettersOfFour(25, 38, 61, 47);
  }

  /** Lettering distributes over concatenation. */
  lemma {:induction false} LettersAppend(a: seq<int>, b: seq<int>)
    requires AllSextets(a) && AllSextets(b)
    ensures AllSextets(a + b) && Letters(a + b) == Letters(a) + Letters(b)
    decreases |a|
  {
    if |a| > 0 {
      assert (a + b)[1..] == a[1..] + b;
      LettersAppend(a[1..], b);
      LettersCons(a + b);
      LettersCons(a);
    } else {
      assert a + b == b;
    }
  }

  /** The 6-bit values of "foobar", one group per three bytes. */
  lemma SplitOfFoobar()
    ensures Split([102, 111, 111, 98, 97, 114]) == [25, 38, 61, 47] + [24, 38, 5, 50]
  {
    var s: Bytes := [102, 111, 111, 98, 97, 114];
    SplitCons(s);
    assert s[3..] == [98, 97, 114];
    SplitCons(s[3..]);
    assert s[3..][3..] == [];
    assert SplitGroup(102, 111, 111) == [25, 38, 61, 47];
    assert SplitGroup(98, 97, 114) == [24, 38, 5, 50];
  }

  /** The letters of those values, group by group. */
  lemma LettersOfFoobar()
    ensures AllSextets([25, 38, 61, 47] + [24, 38, 5, 50])
    ensures Letters([25, 38, 61, 47] + [24, 38, 5, 50]) == "Zm9v" + "YmFy"
  {
    LettersAppend([25, 38, 61, 47], [24, 38, 5, 50]);
    LettersOfFour(25, 38, 61, 47);
    LettersOfFour(24, 38, 5, 50);
  }

  lemma Rfc4648VectorFoobar()
    ensures Encode([102, 111, 111, 98, 97, 114]) == "Zm9vYmFy"
  {
    SplitOfFoobar();
    LettersOfFoobar();
    assert Padding(6) == [];
    assert "Zm9v" + "YmFy" == "Zm9vYmFy";
  }

  /** Decoding undoes encoding. */
  lemma DecodeEncode(s: Bytes)
    ensures Decode(Encode(s)) == Some(s)
  {
    var vs := Split(s);
    ValuesOfLetters(vs);
    JoinOfSplit(s);
    var letters, pads := Letters(vs), Padding(|s|);
    var t := Encode(s);
    assert t == letters + pads;
    EncodeLength(s);
    DecodeOf(letters, pads, vs);
  }

  /** The `=` that end a decodable text are the padding its letters call for. */
  lemma TailIsPadding(n: nat, t: string)
    requires |t| % 4 == 0 && (4 * n + 2) / 3 == |t| - PadCount(t)
    ensures Padding(n) == t[|t| - PadCount(t)..]
  {
    PaddingFills(n, |t| / 4, PadCount(t));
    PadCountSuffix(t);
  }

  /** Encoding undoes decoding: a text that decodes is the encoding of what it
      decodes to. */
  lemma EncodeDecode(t: string)
    requires Decode(t).Some?
    ensures Encode(Decode(t).value) == t
  {
    var body, tail := t[..|t| - PadCount(t)], t[|t| - PadCount(t)..];
    var vs := Values(body).value;
    var s := Join(vs).value;
    assert Letters(Split(s)) == body by {
      LettersOfValues(body);
      SplitOfJoin(vs);
    }
    assert Padding(|s|) == tail by {
      SplitSize(s);
      TailIsPadding(|s|, t);
    }
    assert t == body + tail;
  }

  /** The two directions together: `t` is the base64 text of `s` exactly when
      `t` decodes to `s`. */
  lemma EncodeDecodeIff(s: Bytes, t: string)
    ensures Encode(s) == t <==> Decode(t) == Some(s)
  {
    DecodeEncode(s);
    if Decode(t) == Some(s) {
      EncodeDecode(t);
    }
  }
}

=== FILE: broker.dfy ===
/** The part of an AMQP broker the two programs rely on: one queue with its
    ready messages, the deliveries handed to the single consumer and not yet
    settled, the consumer's prefetch limit (`basic_qos` / `prefetch`), and what
    happens on ack, nack and loss of the channel. */
module Broker {
  import opened Common
  import opened Events

  /** A message in a queue: body, headers table (None when absent) and the
      flag the broker sets once the message has been handed out before. */
  datatype Message = Message(body: Bytes, headers: Option<map<string, string>>, redelivered: bool)

  /** A delivery handed to the consumer and not yet acked or nacked. */
  datatype Unacked = Unacked(tag: Tag, msg: Message)

  /** A queue seen through one consumer's channel. A prefetch of 0 means no
      limit. */
  datatype Queue = Queue(ready: seq<Message>, unacked: seq<Unacked>, nextTag: Tag, prefetch: nat)

  /** The broker hands out a further delivery only below the prefetch limit. */
  predicate HasCapacity(q: Queue) {
    q.prefetch == 0 || |q.unacked| < q.prefetch
  }

  /** The state invariant: the unsettled deliveries respect the prefetch limit
      and carry distinct tags, all issued before `nextTag`; tags start at 1. */
  predicate Valid(q: Queue) {
    && 0 < q.nextTag
    && (q.prefetch == 0 || |q.unacked| <= q.prefetch)
    && (forall i :: 0 <= i < |q.unacked| ==> q.unacked[i].tag < q.nextTag)
    && (forall i, j :: 0 <= i < j < |q.unacked| ==> q.unacked[i].tag != q.unacked[j].tag)
  }

  /** A freshly declared, empty queue consumed with the given prefetch. */
  function Declare(prefetch: nat): (q: Queue)
    ensures Valid(q) && q.ready == [] && q.unacked == [] && q.prefetch == prefetch
  {
    Queue([], [], 1, prefetch)
  }

  /** A publish appends to the ready messages and changes nothing else. */
  function Publish(q: Queue, m: Message): (q': Queue)
    ensures q'.ready == q.ready + [m]
    ensures q'.unacked == q.unacked && q'.nextTag == q.nextTag && q'.prefetch == q.prefetch
    ensures Valid(q) ==> Valid(q')
  {
    q.(ready := q.ready + [m])
  }

  /** The broker hands the first ready message to the consumer under a fresh
      tag, when there is one and the prefetch limit allows it. */
  function Deliver(q: Queue): (r: Option<(Queue, Unacked)>)
    ensures r.Some? <==> |q.ready| > 0 && HasCapacity(q)
    ensures r.Some? ==>
              && r.value.1.msg == q.ready[0]
              && r.value.0.ready == q.ready[1..]
              && r.value.0.unacked == q.unacked + [r.value.1]
              && r.value.0.prefetch == q.prefetch
    // the tag is the next one of the channel, never handed out before
    ensures r.Some? ==> r.value.1.tag == q.nextTag && r.value.0.nextTag == q.nextTag + 1
    ensures r.Some? && Valid(q) ==>
              && Valid(r.value.0)
              && forall i :: 0 <= i < |q.unacked| ==> q.unacked[i].tag != r.value.1.tag
  {
    if |q.ready| > 0 && HasCapacity(q) then
      var u := Unacked(q.nextTag, q.ready[0]);
      Some((Queue(q.ready[1..], q.unacked + [u], q.nextTag + 1, q.prefetch), u))
    else
      None
  }

  /** The position of the unsettled delivery with this tag, if any. */
  function Find(us: seq<Unacked>, tag: Tag): (r: Option<nat>)
    ensures r.Some? ==> r.value < |us| && us[r.value].tag == tag
    ensures r.None? <==> forall k :: 0 <= k < |us| ==> us[k].tag != tag
  {
    if |us| == 0 then None
    else if us[0].tag == tag then Some(0)
    else
      match Find(us[1..], tag)
      case None => None
      case Some(k) => Some(k + 1)
  }

  /** The message as it goes back into the queue: marked redelivered. */
  function Requeued(m: Message): (m': Message)
    ensures m'.redelivered && m'.body == m.body && m'.headers == m.headers
  {
    m.(redelivered := true)
  }

  /** The queue once the delivery at position `k` is settled: it leaves the
      unsettled deliveries and, when requeued, its message goes back to the
      head of the queue marked redelivered. */
  function Retire(q: Queue, k: nat, requeue: bool): (q': Queue)
    requires k < |q.unacked|
    ensures |q'.unacked| == |q.unacked| - 1
    ensures forall i :: 0 <= i < |q'.unacked| ==> q'.unacked[i] == q.unacked[if i < k then i else i + 1]
  {
    q.(ready := if requeue then [Requeued(q.unacked[k].msg)] + q.ready else q.ready,
       unacked := q.unacked[..k] + q.unacked[k + 1..])
  }

  /** Retiring a delivery keeps the invariant, and with distinct tags its tag
      is no longer outstanding. */
  lemma RetireValid(q: Queue, k: nat, requeue: bool)
    requires Valid(q) && k < |q.unacked|
    ensures Valid(Retire(q, k, requeue))
    ensures forall i :: 0 <= i < |Retire(q, k, requeue).unacked| ==>
              Retire(q, k, requeue).unacked[i].tag != q.unacked[k].tag
  {
    var us := Retire(q, k, requeue).unacked;
    forall i, j | 0 <= i < j < |us|
      ensures us[i].tag != us[j].tag
    {
      assert us[i] == q.unacked[if i < k then i else i + 1];
      assert us[j] == q.unacked[if j < k then j else j + 1];
    }
  }

  /** The broker's answer to one call of the trace. An ack removes the
      delivery; a nack removes it and, with `requeue`, puts its message back at
      the head of the queue marked redelivered; a settlement of a tag that is
      not outstanding is a channel error (AMQP reply code 406,
      PRECONDITION_FAILED). Calls that are not settlements leave the queue
      alone. */
  function Settle(q: Queue, e: Event): (r: Outcome<Queue>)
    ensures !IsSettle(e) ==> r == Ok(q)
    ensures IsSettle(e) ==> (r.Fail? <==> Find(q.unacked, e.tag).None?)
    ensures r.Ok? ==> r.value.prefetch == q.prefetch && r.value.nextTag == q.nextTag
    ensures r.Ok? && IsSettle(e) ==>
              && |r.value.unacked| == |q.unacked| - 1
              && var m := q.unacked[Find(q.unacked, e.tag).value].msg;
                 r.value.ready == (if e.Nack? && e.requeue then [Requeued(m)] + q.ready else q.ready)
    // the other outstanding deliveries stay, in their order
    ensures r.Ok? && IsSettle(e) ==>
              var k := Find(q.unacked, e.tag).value;
              r.value.unacked == q.unacked[..k] + q.unacked[k + 1..]
    ensures r.Ok? && Valid(q) ==> Valid(r.value)
    ensures r.Ok? && Valid(q) && IsSettle(e) ==>
              forall k :: 0 <= k < |r.value.unacked| ==> r.value.unacked[k].tag != e.tag
  {
    if !IsSettle(e) then Ok(q)
    else
      match Find(q.unacked, e.tag)
      case None => Fail
      case Some(k) =>
        if Valid(q) then RetireValid(q, k, e.Nack? && e.requeue); Ok(Retire(q, k, e.Nack? && e.requeue))
        else Ok(Retire(q, k, e.Nack? && e.requeue))
  }

  /** The broker's answer to a whole trace, call by call; the first channel
      error ends it. */
  function Apply(q: Queue, t: seq<Event>): (r: Outcome<Queue>)
    ensures r.Ok? ==> r.value.prefetch == q.prefetch
    ensures r.Ok? && Valid(q) ==> Valid(r.value)
    decreases |t|
  {
    if |t| == 0 then Ok(q)
    else
      match Settle(q, t[0])
      case Fail => Fail
      case Ok(q') => Apply(q', t[1..])
  }

  /** The channel or connection goes away: every unsettled delivery goes back
      to the head of the queue, marked redelivered. */
  function Disconnect(q: Queue): (q': Queue)
    ensures q'.unacked == [] && q'.prefetch == q.prefetch && q'.nextTag == q.nextTag
    ensures |q'.ready| == |q.unacked| + |q.ready| && q'.ready[|q.unacked|..] == q.ready
    ensures forall i :: 0 <= i < |q.unacked| ==> q'.ready[i] == Requeued(q.unacked[i].msg)
    ensures Valid(q) ==> Valid(q')
  {
    var back := seq(|q.unacked|, i requires 0 <= i < |q.unacked| => Requeued(q.unacked[i].msg));
    q.(ready := back + q.ready, unacked := [])
  }

  /** Only the settlements of a trace matter to the queue. */
  lemma {:induction false} ApplySettlesOnly(q: Queue, t: seq<Event>)
    ensures Apply(q, t) == Apply(q, Settles(t))
    decreases |t|
  {
    if |t| > 0 {
      var s := Settles(t);
      if IsSettle(t[0]) {
        assert s == [t[0]] + Settles(t[1..]);
        assert |s| > 0 && s[0] == t[0] && s[1..] == Settles(t[1..]);
        match Settle(q, t[0])
        case Fail =>
          assert Apply(q, s).Fail?;
        case Ok(q') =>
          ApplySettlesOnly(q', t[1..]);
          assert Apply(q, s) == Apply(q', s[1..]);
      } else {
        assert s == Settles(t[1..]);
        ApplySettlesOnly(q, t[1..]);
      }
    }
  }

  /** A trace with a single settlement acts on the queue as that settlement. */
  lemma ApplyOneSettle(q: Queue, t: seq<Event>, e: Event)
    requires Settles(t) == [e]
    ensures Apply(q, t) == Settle(q, e)
  {
    ApplySettlesOnly(q, t);
    assert [e][1..] == [];
  }

  /** A delivery settled twice — ack then nack, or ack then ack — draws a
      channel error from the broker, since the first settlement already
      retired its tag. */
  lemma DoubleSettleRejected(q: Queue, e1: Event, e2: Event)
    requires Valid(q) && IsSettle(e1) && IsSettle(e2) && e1.tag == e2.tag
    ensures Apply(q, [e1, e2]).Fail?
  {
    match Settle(q, e1)
    case Fail =>
    case Ok(q1) =>
      assert Find(q1.unacked, e2.tag).None?;
      assert [e1, e2][1..] == [e2];
  }
}

=== FILE: common.dfy ===
/** Shared vocabulary: bytes, optional values, and the outcome of a foreign call. */
module Common {

  /** One octet of a message body or an image. */
  newtype byte = x: int | 0 <= x < 256

  type Bytes = seq<byte>

  datatype Option<+T> = None | Some(value: T)

  /** What a foreign call (PIL, OpenAI, psycopg2, pika, amqplib, puppeteer) did:
      returned a value, or raised. The model never looks inside the call. */
  datatype Outcome<+T> = Ok(value: T) | Fail

  /** The outcome of a foreign call whose return value is not used. */
  type Status = Outcome<()>
}

=== FILE: consumer.dfy ===
/** The screenshot consumer: `store_result` and the delivery callback
    `process_screenshot`, as pure functions from the outcomes of their foreign
    calls to the trace of calls they issue, the rows the table holds afterwards,
    and how the callback ends. */
module Consumer {
  import opened Common
  import opened Events
  import Base64

  /** The url used when the message headers carry none. */
  const UnknownUrl: string := "Unknown URL"

  /** The RFC 2397 prefix put in front of the base64 text of the PNG. */
  const DataUrlPrefix: string := "data:image/png;base64,"

  /** The fixed parts of the analysis request. */
  const Model: string := "gpt-4o"
  const Instruction: string :=
    "You are a data extraction specialist. Please extract the text from the image and return it in a structured format."
  const MaxTokens: nat := 300

  /** `basic_qos(prefetch_count=1)`. */
  const Prefetch: nat := 1

  /** One delivery as the callback sees it: the delivery tag, the headers of the
      message properties (None when the message carries no headers table), and
      the body. */
  datatype Delivery = Delivery(tag: Tag, headers: Option<map<string, string>>, body: Bytes)

  /** A committed row of `website_analyses`. The server-side `created_at` and
      any other column the database fills in are not modelled. */
  datatype Row = Row(url: string, analysis: string)

  /** Outcomes of the psycopg2 calls `store_result` makes. */
  datatype StoreIo = StoreIo(execute: Status, commit: Status, rollback: Status)

  /** Outcomes of the foreign calls one delivery meets: `Image.open`,
      `image.save(format="PNG")` with the bytes it wrote, the chat completion
      with the content it returned, the database, and the two channel calls. */
  datatype ConsumerIo = ConsumerIo(
    open: Status,
    save: Outcome<Bytes>,
    analysis: Outcome<string>,
    store: StoreIo,
    ack: Status,
    nack: Status)

  /** What an invocation did: the calls it issued, the committed rows
      afterwards, whether it returned or raised, and whether one of its
      channel calls (`basic_ack`, `basic_nack`) raised. */
  datatype Run = Run(trace: seq<Event>, rows: seq<Row>, exit: Exit, channelError: bool)

  /** `properties.headers.get('url', 'Unknown URL')`. */
  function UrlOf(headers: map<string, string>): string {
    if "url" in headers then headers["url"] else UnknownUrl
  }

  /** The image url of the analysis request: the PNG as a base64 data url. */
  function DataUrl(png: Bytes): (u: string)
    ensures |DataUrlPrefix| <= |u| && u[..|DataUrlPrefix|] == DataUrlPrefix
  {
    DataUrlPrefix + Base64.Encode(png)
  }

  /** A data url carries exactly its PNG: its payload is four characters per
      three bytes, and a payload belongs to the data url of `png` exactly when
      it decodes to `png`. */
  lemma DataUrlCarries(png: Bytes, payload: string)
    ensures |DataUrl(png)| == |DataUrlPrefix| + 4 * ((|png| + 2) / 3)
    ensures DataUrl(png) == DataUrlPrefix + payload <==> Base64.Decode(payload) == Some(png)
  {
    var u := DataUrl(png);
    Base64.EncodeLength(png);
    Base64.EncodeDecodeIff(png, payload);
    if u == DataUrlPrefix + payload {
      assert u[|DataUrlPrefix|..] == payload;
    }
  }

  /** The chat-completion request for the PNG: the model, the instruction, the
      image as a data url and the token cap. */
  function Request(png: Bytes): Event {
    Analyze(Model, Instruction, DataUrl(png), MaxTokens)
  }

  /** The transaction of `store_result` commits: the INSERT and the commit
      both return. */
  predicate Committed(io: StoreIo) {
    io.execute.Ok? && io.commit.Ok?
  }

  /** `store_result(url, analysis)`. */
  function StoreResult(rows: seq<Row>, url: string, analysis: string, io: StoreIo): (r: Run)
    // the INSERT is always attempted first, and nothing is settled here
    ensures |r.trace| >= 2 && r.trace[0] == Insert(url, analysis)
    ensures forall i :: 1 <= i < |r.trace| ==> r.trace[i] == Commit || r.trace[i] == Rollback
    // exactly one row is added on commit, and nothing changes otherwise
    ensures Committed(io) ==> r.rows == rows + [Row(url, analysis)]
    ensures !Committed(io) ==> r.rows == rows
    // commit is only reached after the INSERT succeeded
    ensures Commit in r.trace ==> io.execute.Ok?
    // any failure leads to a rollback, and a rollback only follows a failure
    ensures Rollback in r.trace <==> !Committed(io)
    // an error escapes only when the rollback itself fails
    ensures r.exit == Raised <==> !Committed(io) && io.rollback.Fail?
  {
    var insert := [Insert(url, analysis)];
    if io.execute.Fail? then Recover(rows, insert, io)
    else if io.commit.Fail? then Recover(rows, insert + [Commit], io)
    else Run(insert + [Commit], rows + [Row(url, analysis)], Returned, false)
  }

  /** The `except` branch of `store_result`. */
  function Recover(rows: seq<Row>, t: seq<Event>, io: StoreIo): Run {
    Run(t + [Rollback], rows, if io.rollback.Ok? then Returned else Raised, false)
  }

  /** The `except` branch of `process_screenshot`. */
  function Reject(rows: seq<Row>, t: seq<Event>, tag: Tag, io: ConsumerIo, ackFailed: bool): Run {
    Run(t + [Nack(tag, true)], rows, if io.nack.Ok? then Returned else Raised, ackFailed || io.nack.Fail?)
  }

  /** `process_screenshot(ch, method, properties, body)`. The url lookup sits
      before the `try`; everything from `Image.open` to `basic_ack` sits inside
      it, so any exception there, `basic_ack`'s included, leads to a nack. */
  function ProcessScreenshot(rows: seq<Row>, d: Delivery, io: ConsumerIo): (r: Run)
    // the committed table only grows, by at most the one row of this delivery
    ensures r.rows == rows || (d.headers.Some? && io.analysis.Ok? && r.rows == rows + [Row(UrlOf(d.headers.value), io.analysis.value)])
    // every settlement is for this delivery's own tag, and a nack always requeues
    ensures forall i :: 0 <= i < |r.trace| && IsSettle(r.trace[i]) ==>
              r.trace[i].tag == d.tag && (r.trace[i].Nack? ==> r.trace[i].requeue)
  {
    match d.headers
    case None => Run([], rows, Raised, false)
    case Some(h) =>
      var url := UrlOf(h);
      if io.open.Fail? || io.save.Fail? then Reject(rows, [], d.tag, io, false)
      else
        var request := Request(io.save.value);
        if io.analysis.Fail? then Reject(rows, [request], d.tag, io, false)
        else
          var s := StoreResult(rows, url, io.analysis.value, io.store);
          var t := [request] + s.trace;
          if s.exit.Raised? then Reject(s.rows, t, d.tag, io, false)
          else if io.ack.Fail? then Reject(s.rows, t + [Ack(d.tag)], d.tag, io, true)
          else Run(t + [Ack(d.tag)], s.rows, Returned, false)
  }

  /** The foreign steps before `store_result` (decode, PNG re-encode, analysis)
      all return. */
  predicate Analysed(io: ConsumerIo) {
    io.open.Ok? && io.save.Ok? && io.analysis.Ok?
  }

  /** A message without a headers table makes the url lookup raise before the
      `try`: the callback issues no call at all, so the delivery is neither
      acked nor nacked. */
  lemma NoHeadersLeavesUnsettled(rows: seq<Row>, d: Delivery, io: ConsumerIo)
    requires d.headers.None?
    ensures ProcessScreenshot(rows, d, io) == Run([], rows, Raised, false)
  {
  }

  /** The result of `store_result` inside the callback. */
  function Stored(rows: seq<Row>, d: Delivery, io: ConsumerIo): Run
    requires d.headers.Some? && io.analysis.Ok?
  {
    StoreResult(rows, UrlOf(d.headers.value), io.analysis.value, io.store)
  }

  /** The INSERT uses the `url` header, or "Unknown URL" when there is none,
      and it is issued at most once. */
  lemma InsertUsesHeaderUrl(rows: seq<Row>, d: Delivery, io: ConsumerIo)
    requires d.headers.Some?
    ensures var r := ProcessScreenshot(rows, d, io);
            forall i :: 0 <= i < |r.trace| && r.trace[i].Insert? ==>
              i == 1 && r.trace[i].url == (if "url" in d.headers.value then d.headers.value["url"] else UnknownUrl)
  {
    var r := ProcessScreenshot(rows, d, io);
    if !(io.open.Ok? && io.save.Ok?) {
      assert r.trace == [Nack(d.tag, true)];
    } else if io.analysis.Fail? {
      assert r.trace == [Request(io.save.value), Nack(d.tag, true)];
    } else {
      var s := Stored(rows, d, io);
      var t := [Request(io.save.value)] + s.trace;
      assert r.trace == t || r.trace == t + [Nack(d.tag, true)] || r.trace == t + [Ack(d.tag)]
          || r.trace == t + [Ack(d.tag)] + [Nack(d.tag, true)];
      forall i | 0 <= i < |r.trace| && r.trace[i].Insert?
        ensures i == 1 && r.trace[i].url == UrlOf(d.headers.value)
      {
        assert 1 <= i <= |s.trace| && r.trace[i] == s.trace[i - 1];
      }
    }
  }

  /** `store_result` raises: the transaction failed and so did its rollback. */
  predicate StoreRaises(io: StoreIo) {
    !Committed(io) && io.rollback.Fail?
  }

  /** Once the analysis is obtained: the trace of the callback is the request,
      the calls of `store_result`, and then an ack when `store_result` returned
      and a nack when it raised or the ack raised. */
  lemma AnalysedRun(rows: seq<Row>, d: Delivery, io: ConsumerIo)
    requires d.headers.Some? && Analysed(io)
    ensures var s := Stored(rows, d, io);
            var t := [Request(io.save.value)] + s.trace;
            var r := ProcessScreenshot(rows, d, io);
            && (forall i :: 0 <= i < |t| ==> !IsSettle(t[i]))
            && r.rows == s.rows
            && r.trace == (if s.exit.Raised? then t + [Nack(d.tag, true)]
                           else if io.ack.Fail? then t + [Ack(d.tag)] + [Nack(d.tag, true)]
                           else t + [Ack(d.tag)])
  {
    var s := Stored(rows, d, io);
    var t := [Request(io.save.value)] + s.trace;
    forall i | 0 <= i < |t|
      ensures !IsSettle(t[i])
    {
      if i > 0 {
        assert t[i] == s.trace[i - 1];
      }
    }
  }

  /** The settlement policy of the callback once the headers are read: an ack
      when the analysis was obtained and `store_result` returned — whether or
      not the row was committed — and a requeueing nack otherwise. With a
      working `basic_ack` the delivery is settled exactly once. */
  lemma SettledExactlyOnce(rows: seq<Row>, d: Delivery, io: ConsumerIo)
    requires d.headers.Some? && io.ack.Ok?
    ensures var r := ProcessScreenshot(rows, d, io);
            Settles(r.trace) == (if Analysed(io) && !StoreRaises(io.store) then [Ack(d.tag)] else [Nack(d.tag, true)])
  {
    var r := ProcessScreenshot(rows, d, io);
    if !(io.open.Ok? && io.save.Ok?) {
      assert r.trace == [Nack(d.tag, true)];
    } else if io.analysis.Fail? {
      assert r.trace == [Request(io.save.value)] + [Nack(d.tag, true)];
      SettlesAppend([Request(io.save.value)], [Nack(d.tag, true)]);
    } else {
      AnalysedRun(rows, d, io);
      var t := [Request(io.save.value)] + Stored(rows, d, io).trace;
      SettlesOfNone(t);
      SettlesAppend(t, [Ack(d.tag)]);
      SettlesAppend(t, [Nack(d.tag, true)]);
    }
  }

  /** A failure to decode, to re-encode as PNG, or to obtain the analysis is
      answered by exactly one requeueing nack of this delivery, with
      `store_result` never called and the table untouched. */
  lemma EarlyFailureNacksOnce(rows: seq<Row>, d: Delivery, io: ConsumerIo)
    requires d.headers.Some? && !Analysed(io)
    ensures var r := ProcessScreenshot(rows, d, io);
            && Settles(r.trace) == [Nack(d.tag, true)]
            && r.trace[|r.trace| - 1] == Nack(d.tag, true)
            && NoInsert(r.trace)
            && r.rows == rows
            && (r.exit == Raised <==> io.nack.Fail?)
  {
    var r := ProcessScreenshot(rows, d, io);
    if !(io.open.Ok? && io.save.Ok?) {
      assert r.trace == [Nack(d.tag, true)];
    } else {
      var request := Request(io.save.value);
      assert r.trace == [request, Nack(d.tag, true)];
      SettlesAppend([request], [Nack(d.tag, true)]);
    }
  }

  /** On the success path the callback asks for the analysis, inserts and
      commits the row, and only then acks its own delivery tag. */
  lemma SuccessStoresThenAcks(rows: seq<Row>, d: Delivery, io: ConsumerIo)
    requires d.headers.Some? && Analysed(io) && Committed(io.store) && io.ack.Ok?
    ensures var r := ProcessScreenshot(rows, d, io);
            var url := UrlOf(d.headers.value);
            && r.trace == [Analyze(Model, Instruction, DataUrl(io.save.value), MaxTokens),
                           Insert(url, io.analysis.value), Commit, Ack(d.tag)]
            && r.rows == rows + [Row(url, io.analysis.value)]
            && r.exit == Returned && !r.channelError
  {
    var s := Stored(rows, d, io);
    assert s.trace == [Insert(UrlOf(d.headers.value), io.analysis.value), Commit] && s.exit == Returned;
  }

  /** Whatever the outcomes, an ack is only ever sent after the INSERT was
      issued. */
  lemma AckOnlyAfterInsert(rows: seq<Row>, d: Delivery, io: ConsumerIo)
    ensures AckAfterInsert(ProcessScreenshot(rows, d, io).trace)
  {
    var r := ProcessScreenshot(rows, d, io);
    if d.headers.None? {
      assert r.trace == [];
    } else if !(io.open.Ok? && io.save.Ok?) {
      assert r.trace == [Nack(d.tag, true)];
    } else if io.analysis.Fail? {
      assert r.trace == [Request(io.save.value), Nack(d.tag, true)];
    } else {
      AnalysedRun(rows, d, io);
      assert r.trace[1] == Insert(UrlOf(d.headers.value), io.analysis.value);
      forall i | 0 <= i < |r.trace| && r.trace[i].Ack?
        ensures exists j :: 0 <= j < i && r.trace[j].Insert?
      {
        assert i > 1;
      }
    }
  }

  /** `store_result` swallows a failed INSERT or commit once the rollback
      works: the callback then acks the delivery although no row was stored. */
  lemma StoreFailureStillAcked(rows: seq<Row>, d: Delivery, io: ConsumerIo)
    requires d.headers.Some? && Analysed(io) && !Committed(io.store) && io.store.rollback.Ok? && io.ack.Ok?
    ensures var r := ProcessScreenshot(rows, d, io);
            && Settles(r.trace) == [Ack(d.tag)]
            && Rollback in r.trace
            && r.rows == rows
            && r.exit == Returned
  {
    AnalysedRun(rows, d, io);
    var s := Stored(rows, d, io);
    var t := [Request(io.save.value)] + s.trace;
    assert s.exit == Returned && s.trace[|s.trace| - 1] == Rollback;
    var r := ProcessScreenshot(rows, d, io);
    assert r.trace == t + [Ack(d.tag)];
    SettlesOfNone(t);
    SettlesAppend(t, [Ack(d.tag)]);
    assert r.trace[|s.trace|] == Rollback;
  }

  /** A rollback that raises is the one storage error that escapes
      `store_result`; the callback then nacks, and nothing is stored. */
  lemma RollbackFailureNacks(rows: seq<Row>, d: Delivery, io: ConsumerIo)
    requires d.headers.Some? && Analysed(io) && StoreRaises(io.store)
    ensures var r := ProcessScreenshot(rows, d, io);
            Settles(r.trace) == [Nack(d.tag, true)] && r.rows == rows
  {
    AnalysedRun(rows, d, io);
    var t := [Request(io.save.value)] + Stored(rows, d, io).trace;
    SettlesOfNone(t);
    SettlesAppend(t, [Nack(d.tag, true)]);
  }

  /** `basic_ack` sits inside the `try`: when it raises, the `except` branch nacks
      the same tag, so the delivery receives two settlement calls. */
  lemma AckFailureSettlesTwice(rows: seq<Row>, d: Delivery, io: ConsumerIo)
    requires d.headers.Some? && Analysed(io) && !StoreRaises(io.store) && io.ack.Fail?
    ensures var r := ProcessScreenshot(rows, d, io);
            Settles(r.trace) == [Ack(d.tag), Nack(d.tag, true)]
  {
    AnalysedRun(rows, d, io);
    var t := [Request(io.save.value)] + Stored(rows, d, io).trace;
    SettlesOfNone(t);
    SettlesAppend(t, [Ack(d.tag)]);
    SettlesAppend(t + [Ack(d.tag)], [Nack(d.tag, true)]);
  }

  /** The analysis request carries the PNG bytes as a base64 data url, and
      decoding its payload gives back exactly those bytes. */
  lemma AnalysisRequestCarriesImage(rows: seq<Row>, d: Delivery, io: ConsumerIo)
    requires d.headers.Some? && io.open.Ok? && io.save.Ok?
    ensures var r := ProcessScreenshot(rows, d, io);
            && |r.trace| > 0 && r.trace[0].Analyze?
            && r.trace[0].model == Model && r.trace[0].maxTokens == MaxTokens
            && var u := r.trace[0].imageUrl;
               |DataUrlPrefix| <= |u| && u[..|DataUrlPrefix|] == DataUrlPrefix
               && Base64.Decode(u[|DataUrlPrefix|..]) == Some(io.save.value)
  {
    var u := DataUrl(io.save.value);
    assert ProcessScreenshot(rows, d, io).trace[0] == Request(io.save.value);
    DataUrlCarries(io.save.value, u[|DataUrlPrefix|..]);
    assert u == DataUrlPrefix + u[|DataUrlPrefix|..];
  }
}

=== FILE: events.dfy ===
/** The calls a message handler issues to its collaborators — the analysis
    service, the database cursor and connection, and the broker channel — in
    the order it issues them. A trace records every call that is made, also one
    that then raises; what a call returned is an input of the handler. */
module Events {

  import opened Common

  /** A broker-assigned delivery tag. */
  type Tag = nat

  /** The queue the producer fills and the consumer drains. */
  const ScreenshotQueue: string := "screenshot_queue"

  datatype Event =
    | Analyze(model: string, instruction: string, imageUrl: string, maxTokens: nat)
      // client.chat.completions.create(...)
    | Insert(url: string, analysis: string)
      // cur.execute("INSERT INTO website_analyses ...")
    | Commit
    | Rollback
    | Capture(url: string)
      // captureScreenshot(url)
    | Send(queue: string, headers: map<string, string>, body: Bytes)
      // channel.sendToQueue(queue, body, {headers})
    | Ack(tag: Tag)
      // basic_ack(tag) / channel.ack(msg): `multiple` is always false
    | Nack(tag: Tag, requeue: bool)
      // basic_nack(tag, requeue) / channel.nack(msg, false, requeue)

  /** How a handler invocation ended: by returning, or by an exception that
      escapes it. */
  datatype Exit = Returned | Raised

  predicate IsSettle(e: Event) {
    e.Ack? || e.Nack?
  }

  /** The settlement calls of a trace (acks and nacks, for any tag), in order. */
  function Settles(t: seq<Event>): (r: seq<Event>)
    ensures |r| <= |t|
    ensures forall i :: 0 <= i < |r| ==> IsSettle(r[i])
  {
    if |t| == 0 then []
    else (if IsSettle(t[0]) then [t[0]] else []) + Settles(t[1..])
  }

  lemma {:induction false} SettlesAppend(a: seq<Event>, b: seq<Event>)
    ensures Settles(a + b) == Settles(a) + Settles(b)
  {
    if |a| == 0 {
      assert a + b == b;
    } else {
      assert (a + b)[1..] == a[1..] + b;
      SettlesAppend(a[1..], b);
    }
  }

  lemma SettlesOfNone(t: seq<Event>)
    requires forall i :: 0 <= i < |t| ==> !IsSettle(t[i])
    ensures Settles(t) == []
  {
  }

  /** The trace issues no INSERT. */
  predicate NoInsert(t: seq<Event>) {
    forall i :: 0 <= i < |t| ==> !t[i].Insert?
  }

  /** Every ack in the trace comes after some INSERT. */
  predicate AckAfterInsert(t: seq<Event>) {
    forall i :: 0 <= i < |t| && t[i].Ack? ==> exists j :: 0 <= j < i && t[j].Insert?
  }
}

=== FILE: pipeline.dfy ===
/** The two programs running against the broker: each step hands the next
    delivery to a handler and lets the broker act on the calls it issued.
    A channel call that raised is taken to mean the channel is gone, and the
    broker then requeues every unsettled delivery. */
module Pipeline {
  import opened Common
  import opened Events
  import opened Broker
  import Consumer
  import Producer

  /** The screenshot consumer: its queue, the committed rows, and whether
      `start_consuming` is still running. */
  datatype ConsumerState = ConsumerState(queue: Queue, rows: seq<Consumer.Row>, running: bool)

  /** `main`: the queue is consumed with `prefetch_count=1`. */
  function ConsumerStart(ready: seq<Message>, rows: seq<Consumer.Row>): (s: ConsumerState)
    ensures Valid(s.queue) && s.queue.prefetch == Consumer.Prefetch && s.queue.unacked == []
    ensures s.queue.ready == ready && s.rows == rows && s.running
  {
    ConsumerState(Declare(Consumer.Prefetch).(ready := ready), rows, true)
  }

  function AsDelivery(u: Unacked): Consumer.Delivery {
    Consumer.Delivery(u.tag, u.msg.headers, u.msg.body)
  }

  /** One delivery through `process_screenshot`. An exception out of the
      callback ends `start_consuming`; `main` then closes the connection. */
  function ConsumerStep(s: ConsumerState, io: Consumer.ConsumerIo): (s': ConsumerState)
    ensures s'.queue.prefetch == s.queue.prefetch
    ensures Valid(s.queue) ==> Valid(s'.queue)
    ensures !s.running ==> s' == s
  {
    if !s.running then s
    else
      match Deliver(s.queue)
      case None => s
      case Some((q, u)) =>
        var r := Consumer.ProcessScreenshot(s.rows, AsDelivery(u), io);
        if r.exit.Raised? || r.channelError then ConsumerState(Disconnect(q), r.rows, false)
        else
          match Apply(q, r.trace)
          case Fail => ConsumerState(Disconnect(q), r.rows, false)
          case Ok(q') => ConsumerState(q', r.rows, true)
  }

  /** Successive steps, one outcome record per delivery. */
  function ConsumerRun(s: ConsumerState, ios: seq<Consumer.ConsumerIo>): (s': ConsumerState)
    ensures s'.queue.prefetch == s.queue.prefetch
    ensures Valid(s.queue) ==> Valid(s'.queue)
    decreases |ios|
  {
    if |ios| == 0 then s else ConsumerRun(ConsumerStep(s, ios[0]), ios[1..])
  }

  /** With prefetch 1, the delivery being processed is the only unsettled one. */
  lemma HandlerRunsAlone(q: Queue)
    requires Valid(q) && q.prefetch == Consumer.Prefetch && Deliver(q).Some?
    ensures Deliver(q).value.0.unacked == [Deliver(q).value.1]
  {
  }

  /** With prefetch 1, the consumer never holds more than one unsettled
      delivery, however many deliveries it goes through. */
  lemma InFlightAtMostOne(s: ConsumerState, ios: seq<Consumer.ConsumerIo>)
    requires Valid(s.queue) && s.queue.prefetch == Consumer.Prefetch
    ensures |ConsumerRun(s, ios).queue.unacked| <= 1
  {
  }

  /** A consumer that is running with nothing unsettled and this message at
      the head of its queue. */
  predicate ReadyFor(s: ConsumerState, m: Message, rest: seq<Message>) {
    s.running && Valid(s.queue) && s.queue.unacked == [] && s.queue.ready == [m] + rest
  }

  /** A delivery processed successfully leaves the queue and adds its row. */
  lemma ConsumerSuccessStep(s: ConsumerState, m: Message, rest: seq<Message>, io: Consumer.ConsumerIo)
    requires ReadyFor(s, m, rest) && s.queue.prefetch == Consumer.Prefetch && m.headers.Some?
    requires Consumer.Analysed(io) && Consumer.Committed(io.store) && io.ack.Ok?
    ensures var s' := ConsumerStep(s, io);
            && s'.running && s'.queue.ready == rest && s'.queue.unacked == []
            && s'.rows == s.rows + [Consumer.Row(Consumer.UrlOf(m.headers.value), io.analysis.value)]
  {
    var (q, u) := Deliver(s.queue).value;
    var r := Consumer.ProcessScreenshot(s.rows, AsDelivery(u), io);
    Consumer.SettledExactlyOnce(s.rows, AsDelivery(u), io);
    ApplyOneSettle(q, r.trace, Ack(u.tag));
  }

  /** A delivery whose decode, re-encode or analysis fails, and whose nack
      goes through, returns to the head of the queue, marked redelivered, with
      no row added. */
  lemma ConsumerFailureRequeues(s: ConsumerState, m: Message, rest: seq<Message>, io: Consumer.ConsumerIo)
    requires ReadyFor(s, m, rest) && m.headers.Some?
    requires !Consumer.Analysed(io) && io.nack.Ok?
    ensures var s' := ConsumerStep(s, io);
            && s'.running && s'.queue.ready == [Requeued(m)] + rest && s'.queue.unacked == []
            && s'.rows == s.rows
  {
    var (q, u) := Deliver(s.queue).value;
    assert q.unacked == [u] && u.msg == m && q.ready == rest;
    var nack := Nack(u.tag, true);
    var r := Consumer.ProcessScreenshot(s.rows, AsDelivery(u), io);
    if io.open.Fail? || io.save.Fail? {
      assert r.trace == [nack] && r.rows == s.rows;
      assert Settles(r.trace) == [nack];
    } else {
      assert r.trace == [Consumer.Request(io.save.value), nack] && r.rows == s.rows;
      SettlesAppend([Consumer.Request(io.save.value)], [nack]);
    }
    assert r.exit == Returned && !r.channelError;
    ApplyOneSettle(q, r.trace, nack);
    assert Find(q.unacked, u.tag) == Some(0);
  }

  /** A message whose decode, re-encode or analysis fails on every attempt,
      with the nack going through each time, is never removed: it stays at the
      head of the queue, redelivered again and again, and no row is added. */
  lemma {:induction false} PoisonMessageNeverLeaves(s: ConsumerState, m: Message, rest: seq<Message>, ios: seq<Consumer.ConsumerIo>)
    requires ReadyFor(s, m, rest) && m.headers.Some?
    requires forall i :: 0 <= i < |ios| ==> !Consumer.Analysed(ios[i]) && ios[i].nack.Ok?
    ensures var s' := ConsumerRun(s, ios);
            && s'.running && s'.queue.unacked == [] && s'.rows == s.rows
            && s'.queue.ready == [if |ios| == 0 then m else Requeued(m)] + rest
    decreases |ios|
  {
    if |ios| > 0 {
      ConsumerFailureRequeues(s, m, rest, ios[0]);
      var s1 := ConsumerStep(s, ios[0]);
      PoisonMessageNeverLeaves(s1, Requeued(m), rest, ios[1..]);
    }
  }

  /** A storage failure that `store_result` swallows is followed by an ack:
      the delivery leaves the queue and no row records it. */
  lemma StoreFailureLosesMessage(s: ConsumerState, m: Message, rest: seq<Message>, io: Consumer.ConsumerIo)
    requires ReadyFor(s, m, rest) && m.headers.Some?
    requires Consumer.Analysed(io) && !Consumer.Committed(io.store) && io.store.rollback.Ok? && io.ack.Ok?
    ensures var s' := ConsumerStep(s, io);
            s'.running && s'.queue.ready == rest && s'.queue.unacked == [] && s'.rows == s.rows
  {
    var (q, u) := Deliver(s.queue).value;
    var r := Consumer.ProcessScreenshot(s.rows, AsDelivery(u), io);
    Consumer.StoreFailureStillAcked(s.rows, AsDelivery(u), io);
    ApplyOneSettle(q, r.trace, Ack(u.tag));
  }

  /** A message without headers makes the callback raise before the `try`;
      the consumer stops and closing the connection returns the message to
      the queue, marked redelivered. */
  lemma NoHeadersStopsConsumer(s: ConsumerState, m: Message, rest: seq<Message>, io: Consumer.ConsumerIo)
    requires ReadyFor(s, m, rest) && m.headers.None?
    ensures var s' := ConsumerStep(s, io);
            !s'.running && s'.queue.ready == [Requeued(m)] + rest && s'.queue.unacked == [] && s'.rows == s.rows
  {
  }

  /** When `basic_ack` raises the consumer stops and the message comes back
      redelivered, although its row may already be committed. */
  lemma AckFailureStopsConsumer(s: ConsumerState, m: Message, rest: seq<Message>, io: Consumer.ConsumerIo)
    requires ReadyFor(s, m, rest) && m.headers.Some?
    requires Consumer.Analysed(io) && !Consumer.StoreRaises(io.store) && io.ack.Fail?
    ensures var s' := ConsumerStep(s, io);
            && !s'.running && s'.queue.ready == [Requeued(m)] + rest && s'.queue.unacked == []
            && (Consumer.Committed(io.store) ==>
                  s'.rows == s.rows + [Consumer.Row(Consumer.UrlOf(m.headers.value), io.analysis.value)])
  {
  }

  /** `main` run again after `start_consuming` ended: the queue and the
      committed rows are what the last run left. */
  function Restart(s: ConsumerState): (s': ConsumerState)
    ensures s'.running && s'.rows == s.rows && s'.queue.ready == s.queue.ready
  {
    ConsumerStart(s.queue.ready, s.rows)
  }

  /** The row a delivery of `m` commits with the analysis of `io`. */
  function RowOf(m: Message, io: Consumer.ConsumerIo): Consumer.Row
    requires m.headers.Some? && io.analysis.Ok?
  {
    Consumer.Row(Consumer.UrlOf(m.headers.value), io.analysis.value)
  }

  /** The committed message of a raising `basic_ack`, once the consumer is
      started again and processes it successfully, is stored a second time. */
  lemma AckFailureDuplicatesRow(s: ConsumerState, m: Message, rest: seq<Message>, io: Consumer.ConsumerIo, io2: Consumer.ConsumerIo)
    requires ReadyFor(s, m, rest) && m.headers.Some?
    requires Consumer.Analysed(io) && Consumer.Committed(io.store) && io.ack.Fail?
    requires Consumer.Analysed(io2) && Consumer.Committed(io2.store) && io2.ack.Ok? && io2.analysis == io.analysis
    ensures var s2 := ConsumerStep(Restart(ConsumerStep(s, io)), io2);
            && s2.running && s2.queue.ready == rest
            && s2.rows == s.rows + [RowOf(m, io), RowOf(m, io)]
  {
    AckFailureStopsConsumer(s, m, rest, io);
    var s1 := ConsumerStep(s, io);
    ConsumerSuccessStep(Restart(s1), Requeued(m), rest, io2);
    assert s.rows + [RowOf(m, io)] + [RowOf(m, io)] == s.rows + [RowOf(m, io), RowOf(m, io)];
  }

  /** The URL producer: `url_queue` as its channel sees it, the screenshot
      queue it publishes to, and whether it is still consuming. */
  datatype ProducerState = ProducerState(urls: Queue, screenshots: Queue, running: bool)

  /** `processUrls`: `url_queue` is consumed with `prefetch(1)`. */
  function ProducerStart(ready: seq<Message>, screenshots: Queue): (s: ProducerState)
    ensures Valid(s.urls) && s.urls.prefetch == Producer.Prefetch && s.urls.unacked == []
    ensures s.urls.ready == ready && s.screenshots == screenshots && s.running
  {
    ProducerState(Declare(Producer.Prefetch).(ready := ready), screenshots, true)
  }

  /** The screenshot queue after the `sendToQueue` calls of a trace reached the
      broker: each publishes the screenshot with its headers, not redelivered. */
  function Publishes(q: Queue, t: seq<Event>): (q': Queue)
    ensures q'.unacked == q.unacked && q'.prefetch == q.prefetch && q'.nextTag == q.nextTag
    ensures (forall i :: 0 <= i < |t| ==> !t[i].Send?) ==> q' == q
    ensures Valid(q) ==> Valid(q')
    decreases |t|
  {
    if |t| == 0 then q
    else
      var q1 := if t[0].Send? && t[0].queue == ScreenshotQueue
                then Publish(q, Message(t[0].body, Some(t[0].headers), false)) else q;
      Publishes(q1, t[1..])
  }

  function AsUrlMessage(u: Unacked): Producer.UrlMessage {
    Producer.UrlMessage(u.tag, u.msg.body, u.msg.redelivered)
  }

  /** One delivery through the consume callback. A rejected promise is not
      handled anywhere, so a delivery whose handler rejects before settling
      simply stays unsettled. */
  function ProducerStep(s: ProducerState, io: Producer.ProducerIo): (s': ProducerState)
    ensures s'.urls.prefetch == s.urls.prefetch
    ensures Valid(s.urls) ==> Valid(s'.urls)
    ensures Valid(s.screenshots) ==> Valid(s'.screenshots)
    ensures !s.running ==> s' == s
  {
    if !s.running then s
    else
      match Deliver(s.urls)
      case None => s
      case Some((q, u)) =>
        var r := Producer.HandleUrl(Some(AsUrlMessage(u)), io);
        var shots := if io.send.Ok? then Publishes(s.screenshots, r.trace) else s.screenshots;
        if r.channelError then ProducerState(Disconnect(q), shots, false)
        else if r.exit.Raised? then ProducerState(q, shots, true)
        else
          match Apply(q, r.trace)
          case Fail => ProducerState(Disconnect(q), shots, false)
          case Ok(q') => ProducerState(q', shots, true)
  }

  function ProducerRun(s: ProducerState, ios: seq<Producer.ProducerIo>): (s': ProducerState)
    ensures s'.urls.prefetch == s.urls.prefetch
    ensures Valid(s.urls) ==> Valid(s'.urls)
    decreases |ios|
  {
    if |ios| == 0 then s else ProducerRun(ProducerStep(s, ios[0]), ios[1..])
  }

  /** A producer that is running with nothing unsettled and this message at
      the head of `url_queue`. */
  predicate UrlReadyFor(s: ProducerState, m: Message, rest: seq<Message>) {
    s.running && Valid(s.urls) && s.urls.unacked == [] && s.urls.ready == [m] + rest
  }

  /** A URL handled successfully leaves `url_queue`, and its screenshot joins
      the screenshot queue with the parsed url as its `url` header. */
  lemma ProducerSuccessStep(s: ProducerState, m: Message, rest: seq<Message>, io: Producer.ProducerIo)
    requires UrlReadyFor(s, m, rest) && io.parse.Ok? && Producer.Forwarded(io) && io.ack.Ok?
    ensures var s' := ProducerStep(s, io);
            && s'.running && s'.urls.ready == rest && s'.urls.unacked == []
            && s'.screenshots.ready ==
                 s.screenshots.ready + [Message(io.capture.value, Some(map["url" := io.parse.value]), false)]
  {
    var (q, u) := Deliver(s.urls).value;
    var r := Producer.HandleUrl(Some(AsUrlMessage(u)), io);
    Producer.SettledExactlyOnce(AsUrlMessage(u), io);
    ApplyOneSettle(q, r.trace, Ack(u.tag));
    var send := Send(ScreenshotQueue, map["url" := io.parse.value], io.capture.value);
    assert r.trace == [Capture(io.parse.value), send, Ack(u.tag)];
    assert r.trace[1..] == [send, Ack(u.tag)] && r.trace[2..] == [Ack(u.tag)] && r.trace[3..] == [];
    var sh := s.screenshots;
    var shot := Message(io.capture.value, Some(map["url" := io.parse.value]), false);
    calc {
      Publishes(sh, r.trace);
      Publishes(sh, r.trace[1..]);
      Publishes(Publish(sh, shot), r.trace[2..]);
      Publishes(Publish(sh, shot), r.trace[3..]);
    }
  }

  /** A URL whose screenshot fails on its first delivery is nacked with
      requeue: it goes back to the head of `url_queue`, marked redelivered,
      and nothing is published. */
  lemma FirstFailureRequeuedStep(s: ProducerState, m: Message, rest: seq<Message>, io: Producer.ProducerIo)
    requires UrlReadyFor(s, m, rest) && !m.redelivered
    requires io.parse.Ok? && io.capture.Fail? && io.retry.Ok?
    ensures var s' := ProducerStep(s, io);
            && s'.running && s'.urls.ready == [Requeued(m)] + rest && s'.urls.unacked == []
            && s'.screenshots == s.screenshots
  {
    var (q, u) := Deliver(s.urls).value;
    var r := Producer.HandleUrl(Some(AsUrlMessage(u)), io);
    Producer.FirstFailureRequeued(AsUrlMessage(u), io);
    ApplyOneSettle(q, r.trace, Nack(u.tag, true));
  }

  /** A URL whose screenshot fails again on redelivery is acked: it leaves
      `url_queue` for good and nothing is published for it. */
  lemma RedeliveredFailureDroppedStep(s: ProducerState, m: Message, rest: seq<Message>, io: Producer.ProducerIo)
    requires UrlReadyFor(s, m, rest) && m.redelivered
    requires io.parse.Ok? && io.capture.Fail? && io.retry.Ok?
    ensures var s' := ProducerStep(s, io);
            && s'.running && s'.urls.ready == rest && s'.urls.unacked == []
            && s'.screenshots == s.screenshots
  {
    var (q, u) := Deliver(s.urls).value;
    var r := Producer.HandleUrl(Some(AsUrlMessage(u)), io);
    Producer.RedeliveredFailureDropped(AsUrlMessage(u), io);
    ApplyOneSettle(q, r.trace, Ack(u.tag));
  }

  /** A URL whose screenshot always fails is attempted twice and then removed,
      with no screenshot published. */
  lemma AlwaysFailingAttemptedTwice(s: ProducerState, m: Message, rest: seq<Message>, io1: Producer.ProducerIo, io2: Producer.ProducerIo)
    requires UrlReadyFor(s, m, rest) && !m.redelivered
    requires io1.parse.Ok? && io1.capture.Fail? && io1.retry.Ok?
    requires io2.parse.Ok? && io2.capture.Fail? && io2.retry.Ok?
    ensures var s' := ProducerRun(s, [io1, io2]);
            && s'.running && s'.urls.ready == rest && s'.urls.unacked == []
            && s'.screenshots == s.screenshots
  {
    FirstFailureRequeuedStep(s, m, rest, io1);
    var s1 := ProducerStep(s, io1);
    RedeliveredFailureDroppedStep(s1, Requeued(m), rest, io2);
    var s2 := ProducerStep(s1, io2);
    assert [io1, io2][1..] == [io2];
    assert [io2][1..] == [];
    assert ProducerRun(s, [io1, io2]) == ProducerRun(s1, [io2]);
    assert ProducerRun(s1, [io2]) == ProducerRun(s2, []);
  }

  /** A body that does not parse leaves its delivery unsettled; with prefetch 1
      the broker then hands out nothing more, and the producer is stuck for
      good: no later step changes its state. */
  lemma MalformedBodyStalls(s: ProducerState, m: Message, rest: seq<Message>, io: Producer.ProducerIo, later: seq<Producer.ProducerIo>)
    requires UrlReadyFor(s, m, rest) && s.urls.prefetch == Producer.Prefetch && io.parse.Fail?
    ensures var s' := ProducerStep(s, io);
            && s'.running && |s'.urls.unacked| == 1 && s'.urls.unacked[0].msg == m
            && s'.urls.ready == rest && s'.screenshots == s.screenshots
            && ProducerRun(s', later) == s'
  {
    var s' := ProducerStep(s, io);
    StuckStaysStuck(s', later);
  }

  lemma {:induction false} StuckStaysStuck(s: ProducerState, ios: seq<Producer.ProducerIo>)
    requires s.urls.prefetch == Producer.Prefetch && |s.urls.unacked| == 1
    ensures ProducerRun(s, ios) == s
    decreases |ios|
  {
    if |ios| > 0 {
      assert Deliver(s.urls).None?;
      StuckStaysStuck(ProducerStep(s, ios[0]), ios[1..]);
    }
  }

  /** The url the producer puts in the `url` header is the url the consumer
      stores the analysis under. */
  lemma ForwardedUrlIsStored(url: string, shot: Bytes, tag: Tag, rows: seq<Consumer.Row>, io: Consumer.ConsumerIo)
    requires Consumer.Analysed(io) && Consumer.Committed(io.store)
    ensures var m := Message(shot, Some(map["url" := url]), false);
            Consumer.ProcessScreenshot(rows, Consumer.Delivery(tag, m.headers, m.body), io).rows
              == rows + [Consumer.Row(url, io.analysis.value)]
  {
  }
}

=== FILE: producer.dfy ===
/** The URL producer: the callback `processUrls` registers with
    `channel.consume('url_queue', ...)`, as a pure function from the outcomes of
    its foreign calls to the trace of calls it issues. */
module Producer {
  import opened Common
  import opened Events

  const UrlQueue: string := "url_queue"

  /** `channel.prefetch(1)`. */
  const Prefetch: nat := 1

  /** A delivery from `url_queue`: its tag, its content and the broker's
      `redelivered` flag. */
  datatype UrlMessage = UrlMessage(tag: Tag, content: Bytes, redelivered: bool)

  /** Outcomes of the foreign calls one delivery meets: `JSON.parse` of the
      content followed by reading `.url` (Fail when the content is not JSON or
      parses to a value without properties), the screenshot, `sendToQueue`, the
      `ack` of the success path, and the settlement call of the `catch` block. */
  datatype ProducerIo = ProducerIo(
    parse: Outcome<string>,
    capture: Outcome<Bytes>,
    send: Status,
    ack: Status,
    retry: Status)

  /** What an invocation did: the calls it issued, whether its promise
      resolved or rejected, and whether one of its channel calls
      (`sendToQueue`, `ack`, `nack`) threw. */
  datatype Run = Run(trace: seq<Event>, exit: Exit, channelError: bool)

  /** The screenshot and the `sendToQueue` both return. */
  predicate Forwarded(io: ProducerIo) {
    io.capture.Ok? && io.send.Ok?
  }

  /** The settlement the `catch` block chooses: a message seen for the first
      time goes back to the queue, one already redelivered is acked away (the
      dead-letter queue the comments mention does not exist). */
  function Retry(m: UrlMessage): (e: Event)
    ensures IsSettle(e) && e.tag == m.tag
    ensures e.Nack? <==> !m.redelivered
    ensures e.Nack? ==> e.requeue
  {
    if m.redelivered then Ack(m.tag) else Nack(m.tag, true)
  }

  /** The `catch` block. */
  function OnError(m: UrlMessage, t: seq<Event>, io: ProducerIo, channelError: bool): Run {
    Run(t + [Retry(m)], if io.retry.Ok? then Returned else Raised, channelError || io.retry.Fail?)
  }

  /** The consume callback. The parse sits before the `try`; the screenshot,
      the send and the ack sit inside it. */
  function HandleUrl(msg: Option<UrlMessage>, io: ProducerIo): (r: Run)
    // a null message (consumer cancelled by the broker) does nothing
    ensures msg.None? ==> r == Run([], Returned, false)
    // every settlement is for this message's own tag, and a nack always requeues
    ensures forall i :: 0 <= i < |r.trace| && IsSettle(r.trace[i]) ==>
              msg.Some? && r.trace[i].tag == msg.value.tag && (r.trace[i].Nack? ==> r.trace[i].requeue)
    // screenshots only ever go to the screenshot queue, labelled with the parsed url
    ensures forall i :: 0 <= i < |r.trace| && r.trace[i].Send? ==>
              io.parse.Ok? && r.trace[i].queue == ScreenshotQueue && r.trace[i].headers == map["url" := io.parse.value]
  {
    match msg
    case None => Run([], Returned, false)
    case Some(m) =>
      match io.parse
      case Fail => Run([], Raised, false)
      case Ok(url) =>
        var capture := [Capture(url)];
        if io.capture.Fail? then OnError(m, capture, io, false)
        else
          var sent := capture + [Send(ScreenshotQueue, map["url" := url], io.capture.value)];
          if io.send.Fail? then OnError(m, sent, io, true)
          else if io.ack.Fail? then OnError(m, sent + [Ack(m.tag)], io, true)
          else Run(sent + [Ack(m.tag)], Returned, false)
  }

  /** A body that does not parse makes the callback reject before its `try`:
      no screenshot, no send, and the delivery is neither acked nor nacked. */
  lemma MalformedBodyUnsettled(m: UrlMessage, io: ProducerIo)
    requires io.parse.Fail?
    ensures HandleUrl(Some(m), io) == Run([], Raised, false)
  {
  }

  /** On success the screenshot is sent to `screenshot_queue` with a `url`
      header equal to the parsed url, and only after that is the URL message
      acked. */
  lemma SuccessSendsThenAcks(m: UrlMessage, io: ProducerIo)
    requires io.parse.Ok? && Forwarded(io) && io.ack.Ok?
    ensures HandleUrl(Some(m), io).trace ==
              [Capture(io.parse.value), Send(ScreenshotQueue, map["url" := io.parse.value], io.capture.value), Ack(m.tag)]
  {
  }

  /** The settlement policy of a parsed message, with a working `ack`: one
      ack after a forwarded screenshot, and otherwise the one settlement
      `Retry` picks from the `redelivered` flag. */
  lemma SettledExactlyOnce(m: UrlMessage, io: ProducerIo)
    requires io.parse.Ok? && io.ack.Ok?
    ensures Settles(HandleUrl(Some(m), io).trace) == (if Forwarded(io) then [Ack(m.tag)] else [Retry(m)])
  {
    var url := io.parse.value;
    var capture := [Capture(url)];
    SettlesAppend(capture, [Retry(m)]);
    if io.capture.Ok? {
      var sent := capture + [Send(ScreenshotQueue, map["url" := url], io.capture.value)];
      SettlesOfNone(sent);
      SettlesAppend(sent, [Retry(m)]);
      SettlesAppend(sent, [Ack(m.tag)]);
    }
  }

  /** A failed screenshot of a message seen for the first time is answered by
      `nack(msg, false, true)`: this one message is requeued, nothing is sent. */
  lemma FirstFailureRequeued(m: UrlMessage, io: ProducerIo)
    requires io.parse.Ok? && io.capture.Fail? && !m.redelivered
    ensures var r := HandleUrl(Some(m), io);
            Settles(r.trace) == [Nack(m.tag, true)] && forall i :: 0 <= i < |r.trace| ==> !r.trace[i].Send?
  {
    assert HandleUrl(Some(m), io).trace == [Capture(io.parse.value), Nack(m.tag, true)];
    SettlesAppend([Capture(io.parse.value)], [Nack(m.tag, true)]);
  }

  /** A failed screenshot of a redelivered message is answered by an ack: the
      message leaves `url_queue` and no screenshot is sent for it. */
  lemma RedeliveredFailureDropped(m: UrlMessage, io: ProducerIo)
    requires io.parse.Ok? && io.capture.Fail? && m.redelivered
    ensures var r := HandleUrl(Some(m), io);
            Settles(r.trace) == [Ack(m.tag)] && forall i :: 0 <= i < |r.trace| ==> !r.trace[i].Send?
  {
    assert HandleUrl(Some(m), io).trace == [Capture(io.parse.value), Ack(m.tag)];
    SettlesAppend([Capture(io.parse.value)], [Ack(m.tag)]);
  }

  /** The `ack` of the success path sits inside the `try`: when it throws, the
      `catch` block settles the same message a second time. */
  lemma AckFailureSettlesTwice(m: UrlMessage, io: ProducerIo)
    requires io.parse.Ok? && Forwarded(io) && io.ack.Fail?
    ensures Settles(HandleUrl(Some(m), io).trace) == [Ack(m.tag), Retry(m)]
  {
    var url := io.parse.value;
    var sent := [Capture(url), Send(ScreenshotQueue, map["url" := url], io.capture.value)];
    assert HandleUrl(Some(m), io).trace == sent + [Ack(m.tag)] + [Retry(m)];
    SettlesOfNone(sent);
    SettlesAppend(sent, [Ack(m.tag)]);
    SettlesAppend(sent + [Ack(m.tag)], [Retry(m)]);
  }
}
